=== FILE: README.md ===
# Webcam audio visualiser — a Dafny model of its arithmetic core

The visualiser (`src/index.js`) turns each webcam frame into a cloud of
points, one per pixel, and pushes points towards the viewer according to
their brightness and the loudness of three audio bands. Almost all of the
script is glue to three.js, the canvas and the media-capture APIs. This
project models the pure computations inside it and proves their properties:

- **Frequency-band energy** (`getFrequencyRangeValue`, module
  `FrequencyBands`, file `frequency.dfy`). A band `[low, high]` in Hz is
  mapped to bin indices with `Math.round(hz / 24000 * data.length)`. The
  24000 Hz Nyquist comes from a hard-coded 48 kHz sample rate. The function
  then averages the bins of the inclusive index range and divides by 255.
  The model proves that for integer edges the rounding equals the exact
  integer expression `(2·hz·n + 24000) div 48000`. A finite level always lies
  in [0, 1]. Full-scale bins give exactly 1 and silent bins exactly 0. When
  the rounded edges cross, the source divides 0 by 0. When the range reaches
  a bin the array does not have, it adds `undefined`. Both cases give NaN,
  and the model returns them as `NotANumber(EmptyBand)` and
  `NotANumber(UnreadBin)`. On the analyser's 1024 bins
  (`fftSize / 2`), the configured bands cover these bins:

  | band | bins |
  |---|---|
  | bass | 1..6 |
  | lowMid | 6..17 |
  | mid | 17..111 |
  | highMid | 111..222 |
  | treble | 222..597 |

  All of them are finite.
- **Point grid** (`createParticles`, module `PointCloud`, file `points.dfy`).
  There is one vertex per pixel, in row-major order, centred on the origin.
  Vertex `y·width + x` sits at `(x − width/2, height/2 − y, 0)`. Distinct
  pixels get distinct indices, and a vertex's colour channels `4k..4k+2`
  exist in a well-formed frame.
- **Depth rule** (the loop in `draw`). Odd-indexed points get the hidden
  depth 10000. Even-indexed points get `gray · level · 5`, where `gray` is the
  mean of R, G and B. The level is the bass level when gray < 100, the mid
  level when gray < 150, and the treble level otherwise: the code compares
  against `threshold / 3` and `threshold / 2`, so bass spans a third of the
  threshold and mid a sixth. The hiding code is the `else`
  of `gray < threshold` (threshold 300). Three channels of a pixel never
  average above 255, so a point whose channels lie in the frame never takes
  that branch. The model proves this: the band choice equals one made on the
  integer channel sum (`< 300`, `< 450`), and with levels in [0, 1] every
  such even point's depth lies in [0, 1275], below the hidden depth. The
  `else` is taken only when a channel read goes past the end of the frame:
  `undefined` makes `gray` NaN, and `NaN < threshold` is false, so the
  point gets 10000. The model covers that case too (`FrameDepth`).
- **Frame cache** (`getImageData`). With `useCache` set and a frame already
  stored, the stored frame is returned unchanged. Otherwise the captured
  frame is returned and stored.

`uint8.dfy` holds the byte type shared by the frequency bins and the RGBA
channels, and the bounded sum.

## Model

| member | source | states |
|---|---|---|
| Uint8.Sum | src/index.js:163-169 | the running total of n bins, each in 0..255, lies in [0, 255·n] |
| Uint8.SumOfConstant | src/index.js:166-169 | n bins all equal to c total exactly c·n |
| FrequencyBands.Round | src/index.js:161-162 | `Math.round` returns the integer r with r − ½ ≤ x < r + ½ (halves round up) |
| FrequencyBands.BinIndex | src/index.js:160-162 | edges in [0, 24000] Hz map to bins in [0, n]; that it is `Math.round(hz / nyquist · length)` is stated by `BinIndexRounds` |
| FrequencyBands.BinIndexRounds | src/index.js:160-162 | the exact integer bin index (2·hz·n + 24000) div 48000 equals `Math.round(hz / nyquist · length)` |
| FrequencyBands.BinIndexMonotone | src/index.js:161-162 | a higher band edge never maps to a lower bin |
| FrequencyBands.Mean | src/index.js:170 | the mean of a non-empty run of bytes lies in [0, 255] |
| FrequencyBands.MeanOfConstant | src/index.js:163-170 | bins that all hold c have mean exactly c |
| FrequencyBands.BandEnergy | src/index.js:157-171 | a finite band level lies in [0.0, 1.0], as the doc comment promises |
| FrequencyBands.SumExtend | src/index.js:166-169 | adding the next in-range bin to the running total adds its value to the sum of the range so far |
| FrequencyBands.FrequencyRangeValue | src/index.js:159-171 | the loop's total and count give the same result as the mean-of-range definition, NaN cases included |
| FrequencyBands.BandFiniteIff | src/index.js:161-170 | for ordered non-negative edges, the level is a number exactly when 2·high·n + 24000 < 48000·n, that is, when the upper edge rounds below bin n |
| FrequencyBands.BandAtNyquistIsUnread | src/index.js:160-170 | a band reaching 24000 Hz reads past the array, so its level is NaN |
| FrequencyBands.NoBinsIsUnread | src/index.js:161-170 | with no bins every band reads the missing bin 0, so its level is NaN |
| FrequencyBands.FullScaleBand | src/index.js:163-170 | all bins in range at 255 give level exactly 1.0 |
| FrequencyBands.SilentBand | src/index.js:163-170 | all bins in range at 0 give level exactly 0.0 |
| FrequencyBands.ConfiguredBandBins | src/index.js:16-23 | on 1024 bins the five bands cover bins 1..6, 6..17, 17..111, 111..222 and 222..597 |
| FrequencyBands.ConfiguredBandsAreFinite | src/index.js:180-186 | on the analyser's fftSize/2 bins every configured band has a finite level in [0, 1] |
| FrequencyBands.FrameEnergies | src/index.js:180-191 | the bass, mid and treble levels of a frame are all finite and in [0, 1] |
| PointCloud.GridIndexBelow | src/index.js:117-126 | pixels of earlier rows, and earlier pixels of the same row, have smaller vertex indices |
| PointCloud.GridIndexInverse | src/index.js:117-126 | vertex index k belongs to pixel (k mod width, k div width) |
| PointCloud.GridIndexInjective | src/index.js:117-126 | two different pixels never share a vertex index |
| PointCloud.CreateParticles | src/index.js:117-126 | width·height vertices; pixel (x, y) has vertex y·width + x at (x − width/2, height/2 − y, 0) |
| PointCloud.GetImageData | src/index.js:132-149 | with `useCache` set and a frame stored, the stored frame is returned and kept; otherwise the captured frame is returned; either way the stored frame afterwards is the returned one |
| PointCloud.CachedReadsRepeat | src/index.js:133-135 | a cached read right after any read returns that same frame again |
| PointCloud.VertexReadsOwnPixel | src/index.js:208-209 | in a well-formed frame, the channels at 4k..4k+3 of pixel (x, y)'s vertex k all exist |
| PointCloud.Gray | src/index.js:209 | brightness, the mean of three channels, lies in [0, 255] |
| PointCloud.GrayDepth | src/index.js:209-223 | with levels in [0, 1] and non-negative brightness, the point is hidden exactly when brightness reaches the threshold 300; the band choice for pixels is stated by `PointDepth` |
| PointCloud.ThresholdHides | src/index.js:210-223 | a brightness exactly at the threshold 300 would hide the point |
| PointCloud.HideBranchUnreachable | src/index.js:209-211 | every pixel's brightness is below the threshold 300 |
| PointCloud.ScaledBelow | src/index.js:212-220 | with levels in [0, 1], brightness · level · 5 lies in [0, 1275] |
| PointCloud.PointDepth | src/index.js:204-223 | odd points are hidden; even points get gray · level · 5 with the level chosen on the integer channel sum; with unit levels a point is hidden exactly when its index is odd |
| PointCloud.FrameDepth | src/index.js:204-223 | on any frame, a point whose channels lie in the frame gets `PointDepth`'s depth; an odd point, or one reading past the end of the frame, gets 10000 whatever the levels; with levels in [0, 1] a point is hidden exactly when its index is odd or its channels run past the end of the frame |
| PointCloud.UpdateDepths | src/index.js:202-224 | every vertex keeps x and y and gets `FrameDepth`'s z, read from its own pixel, on frames of any size |
| PointCloud.DrawFrame | src/index.js:180-224 | odd points get depth 10000; an even point gets 10000 exactly when its pixel lies past the end of the frame, and otherwise a depth in [0, 1275] driven by the frame's band levels |

## Left out

- Rendering: the three.js scene, camera, renderer, `onResize` and the `requestAnimationFrame` loop. These are calls into the rendering library and the browser's scheduler with no logic of their own.
- Media capture: camera and microphone acquisition, the `getUserMedia` fallback, and `showAlert`. These are asynchronous browser I/O.
- The FFT itself: `getFrequencyData` is an input. The model takes the analyser's promise that it returns fftSize/2 bytes as `FrameEnergies`'s precondition.
- Frame capture: mirroring the canvas and `getImageData`'s pixel read are canvas API calls. `GetImageData` takes the captured frame as a parameter.
- The `parseInt(t) % 2` choice of when to use the cache, and `THREE.Clock`. These are time-keeping.
- Frames drawn before the microphone starts: `r`, `g` and `b` are then `undefined`, so every even point whose channels lie in the frame gets depth NaN from `gray * undefined * 5`. An even point reading past the end of the frame still gets 10000, because its NaN brightness fails `gray < threshold`. The model only covers frames where the analyser exists (`DrawFrame` requires its bins).
- FrequencyBands.BandEnergy: the level `total / numFrequencies / 255` is an exact real, not an IEEE-754 double. The [0, 1] bound and the exact 1.0 and 0.0 results also hold for doubles.
- FrequencyBands.BinIndex: computed exactly over the integers and reals. The source computes `hz / nyquist * length` in IEEE-754 doubles before rounding. For the configured bands no quotient is within rounding error of a half, so the indices agree.
- PointCloud.PointDepth: brightness and depth are exact reals, not IEEE-754 doubles.

=== FILE: frequency.dfy ===
/** Frequency-band energy: how the visualiser turns the analyser's byte
    spectrum into one loudness level per band (src/index.js,
    getFrequencyRangeValue and the audio part of draw).
 */
module FrequencyBands {
  import opened Uint8

  /** The sample rate the code assumes, whatever the capture device uses. */
  const SampleRate := 48000
  const Nyquist := SampleRate / 2

  /** Analyser size; `getFrequencyData` returns half as many bins. */
  const FftSize := 2048
  const BinCount := FftSize / 2

  /** A band of the spectrum given by its edges in Hz, both inclusive. */
  datatype Band = Band(low: int, high: int)

  const Bass := Band(20, 140)
  const LowMid := Band(140, 400)
  const Mid := Band(400, 2600)
  const HighMid := Band(2600, 5200)
  const Treble := Band(5200, 14000)

  /** Why a band level is not a number. */
  datatype Cause =
    | EmptyBand   // the rounded edges cross, so the mean is 0 / 0
    | UnreadBin   // the rounded range reaches a bin the array does not have

  /** What getFrequencyRangeValue returns: a finite level, or NaN. */
  datatype Reading = Finite(value: real) | NotANumber(cause: Cause)

  /** The three levels that drive the point depths, one per colour band. */
  datatype Energies = Energies(bass: real, mid: real, treble: real)

  predicate UnitEnergies(e: Energies) {
    && 0.0 <= e.bass <= 1.0
    && 0.0 <= e.mid <= 1.0
    && 0.0 <= e.treble <= 1.0
  }

  /** `Math.round`: the nearest integer, halves rounded up. */
  function Round(x: real): (r: int)
    ensures r as real - 0.5 <= x < r as real + 0.5
  {
    (x + 0.5).Floor
  }

  /** The bin a band edge falls in, `Math.round(hz / nyquist * data.length)`,
      computed exactly on integers (Dafny's `/` on a positive divisor is
      floor division). */
  function BinIndex(hz: int, binCount: nat): (i: int)
    ensures 0 <= hz ==> 0 <= i
    ensures hz <= Nyquist ==> i <= binCount
  {
    var p := hz * binCount;
    assert 0 <= hz ==> 0 <= p;
    assert hz <= Nyquist ==> p <= Nyquist * binCount by {
      assert Nyquist * binCount - p == (Nyquist - hz) * binCount;
    }
    (2 * p + Nyquist) / (2 * Nyquist)
  }

  /** The integer bin index is the source's real-valued expression rounded
      with `Math.round`. */
  lemma BinIndexRounds(hz: int, binCount: nat)
    ensures BinIndex(hz, binCount) == Round(hz as real / Nyquist as real * binCount as real)
  {
    var p := hz * binCount;
    var x := hz as real / Nyquist as real * binCount as real;
    assert x == p as real / Nyquist as real;
    var q := (2 * p + Nyquist) / (2 * Nyquist);
    var m := (2 * p + Nyquist) % (2 * Nyquist);
    assert 2 * p + Nyquist == 2 * Nyquist * q + m && 0 <= m < 2 * Nyquist;
    assert x == q as real + (m - Nyquist) as real / (2 * Nyquist) as real;
    assert BinIndex(hz, binCount) == q;
  }

  /** Mean magnitude of a non-empty run of bins. */
  function Mean(s: seq<Byte>): (m: real)
    requires |s| > 0
    ensures 0.0 <= m <= MaxByte as real
  {
    Sum(s) as real / |s| as real
  }

  /** The level of a band: the mean of the bins from the rounded lower edge
      to the rounded upper edge inclusive, scaled by 1/255. */
  function BandEnergy(data: seq<Byte>, band: Band): (r: Reading)
    ensures r.Finite? ==> 0.0 <= r.value <= 1.0
  {
    var lo := BinIndex(band.low, |data|);
    var hi := BinIndex(band.high, |data|);
    if hi < lo then NotANumber(EmptyBand)
    else if lo < 0 || |data| <= hi then NotANumber(UnreadBin)
    else Finite(Mean(data[lo..hi + 1]) / MaxByte as real)
  }

  /** Extending a run of bins by the next bin adds that bin to the total. */
  lemma SumExtend(data: seq<Byte>, lo: int, i: int)
    requires 0 <= lo <= i < |data|
    ensures Sum(data[lo..i + 1]) == Sum(data[lo..i]) + data[i]
  {
    assert data[lo..i + 1][..i - lo] == data[lo..i];
  }

  /** getFrequencyRangeValue as written: a running total and count over the
      index range, divided at the end. Reading a bin the array does not
      have yields `undefined`, which turns the total into NaN. */
  method FrequencyRangeValue(data: seq<Byte>, band: Band) returns (r: Reading)
    ensures r == BandEnergy(data, band)
  {
    var lo := BinIndex(band.low, |data|);
    var hi := BinIndex(band.high, |data|);
    var total: int := 0;
    var numFrequencies: int := 0;
    var i := lo;
    while i <= hi
      invariant lo <= i && (lo <= hi ==> i <= hi + 1) && (hi < lo ==> i == lo)
      invariant numFrequencies == i - lo
      invariant lo < i ==> 0 <= lo && i <= |data| && total == Sum(data[lo..i])
      invariant lo == i ==> total == 0
    {
      if i < 0 || |data| <= i {
        return NotANumber(UnreadBin);
      }
      SumExtend(data, lo, i);
      total := total + data[i];
      numFrequencies := numFrequencies + 1;
      i := i + 1;
    }
    if numFrequencies == 0 {
      return NotANumber(EmptyBand);
    }
    assert i == hi + 1 && 0 <= lo && hi < |data|;
    assert total as real / numFrequencies as real == Mean(data[lo..hi + 1]);
    r := Finite(total as real / numFrequencies as real / MaxByte as real);
  }

  /** Raising a band edge never moves it to a lower bin. */
  lemma BinIndexMonotone(hz1: int, hz2: int, binCount: nat)
    requires hz1 <= hz2
    ensures BinIndex(hz1, binCount) <= BinIndex(hz2, binCount)
  {
    var p1, p2 := hz1 * binCount, hz2 * binCount;
    assert p1 <= p2 by {
      assert p2 - p1 == (hz2 - hz1) * binCount;
    }
    assert BinIndex(hz1, binCount) == (2 * p1 + Nyquist) / (2 * Nyquist);
    assert BinIndex(hz2, binCount) == (2 * p2 + Nyquist) / (2 * Nyquist);
  }

  /** Which bands are safe: for ordered non-negative edges the level is a
      number exactly when the upper edge, scaled to bins, stays below the
      rounding point of the last bin. */
  lemma BandFiniteIff(data: seq<Byte>, band: Band)
    requires 0 <= band.low <= band.high
    ensures BandEnergy(data, band).Finite?
        <==> 2 * band.high * |data| + Nyquist < 2 * Nyquist * |data|
  {
    var n := |data|;
    BinIndexMonotone(band.low, band.high, n);
    var p := band.high * n;
    assert 2 * band.high * n == 2 * p;
    assert BinIndex(band.high, n) == (2 * p + Nyquist) / (2 * Nyquist);
    assert BinIndex(band.high, n) < n <==> 2 * p + Nyquist < 2 * Nyquist * n;
  }

  /** A band reaching the Nyquist frequency always asks for a bin past the
      end of the array, so its level is NaN. */
  lemma BandAtNyquistIsUnread(data: seq<Byte>, band: Band)
    requires band.low <= band.high
    requires Nyquist <= band.high
    ensures BandEnergy(data, band) == NotANumber(UnreadBin)
  {
    BinIndexMonotone(band.low, band.high, |data|);
    BinIndexMonotone(Nyquist, band.high, |data|);
  }

  /** Without any bins every band reads bin 0, which does not exist. */
  lemma NoBinsIsUnread(band: Band)
    ensures BandEnergy([], band) == NotANumber(UnreadBin)
  {
  }

  /** A run of equal bins has that bin's value as its mean. */
  lemma MeanOfConstant(s: seq<Byte>, c: Byte)
    requires |s| > 0
    requires forall k :: 0 <= k < |s| ==> s[k] == c
    ensures Mean(s) == c as real
  {
    SumOfConstant(s, c);
    var n := |s| as real;
    assert Sum(s) as real == c as real * n;
    assert c as real * n / n == c as real;
  }

  /** A band whose every bin is at full scale has level exactly 1. */
  lemma FullScaleBand(data: seq<Byte>, band: Band)
    requires forall k :: 0 <= k < |data| && BinIndex(band.low, |data|) <= k <= BinIndex(band.high, |data|) ==> data[k] == MaxByte
    ensures BandEnergy(data, band).Finite? ==> BandEnergy(data, band).value == 1.0
  {
    var lo := BinIndex(band.low, |data|);
    var hi := BinIndex(band.high, |data|);
    if 0 <= lo <= hi < |data| {
      MeanOfConstant(data[lo..hi + 1], MaxByte);
    }
  }

  /** A band whose every bin is silent has level exactly 0. */
  lemma SilentBand(data: seq<Byte>, band: Band)
    requires forall k :: 0 <= k < |data| && BinIndex(band.low, |data|) <= k <= BinIndex(band.high, |data|) ==> data[k] == 0
    ensures BandEnergy(data, band).Finite? ==> BandEnergy(data, band).value == 0.0
  {
    var lo := BinIndex(band.low, |data|);
    var hi := BinIndex(band.high, |data|);
    if 0 <= lo <= hi < |data| {
      MeanOfConstant(data[lo..hi + 1], 0);
    }
  }

  /** The bins each configured band covers in the analyser's 1024-bin output. */
  lemma ConfiguredBandBins()
    ensures BinIndex(Bass.low, BinCount) == 1 && BinIndex(Bass.high, BinCount) == 6
    ensures BinIndex(LowMid.low, BinCount) == 6 && BinIndex(LowMid.high, BinCount) == 17
    ensures BinIndex(Mid.low, BinCount) == 17 && BinIndex(Mid.high, BinCount) == 111
    ensures BinIndex(HighMid.low, BinCount) == 111 && BinIndex(HighMid.high, BinCount) == 222
    ensures BinIndex(Treble.low, BinCount) == 222 && BinIndex(Treble.high, BinCount) == 597
  {
  }

  predicate Configured(band: Band) {
    band in {Bass, LowMid, Mid, HighMid, Treble}
  }

  /** On the analyser's output every configured band is a non-empty run of
      existing bins, so its level is a number in [0, 1]. */
  lemma ConfiguredBandsAreFinite(data: seq<Byte>, band: Band)
    requires |data| == BinCount
    requires Configured(band)
    ensures BandEnergy(data, band).Finite?
    ensures 0.0 <= BandEnergy(data, band).value <= 1.0
  {
    BandFiniteIff(data, band);
  }

  /** The audio half of a frame: the bass, mid and treble levels of the
      analyser's output, which holds fftSize / 2 bins. */
  function FrameEnergies(data: seq<Byte>): (e: Energies)
    requires |data| == BinCount
    ensures UnitEnergies(e)
    ensures Finite(e.bass) == BandEnergy(data, Bass)
    ensures Finite(e.mid) == BandEnergy(data, Mid)
    ensures Finite(e.treble) == BandEnergy(data, Treble)
  {
    ConfiguredBandsAreFinite(data, Bass);
    ConfiguredBandsAreFinite(data, Mid);
    ConfiguredBandsAreFinite(data, Treble);
    Energies(BandEnergy(data, Bass).value, BandEnergy(data, Mid).value, BandEnergy(data, Treble).value)
  }
}

=== FILE: points.dfy ===
/** The video half of the visualiser (src/index.js): one point per pixel of
    the first captured frame, and the per-frame rule that sets each point's
    depth from its pixel's brightness and the audio levels.
 */
module PointCloud {
  import opened Uint8
  import opened FrequencyBands

  datatype Vec3 = Vec3(x: real, y: real, z: real)

  /** A canvas ImageData: `data` holds four channels (R, G, B, A) per pixel,
      row by row. */
  datatype ImageData = ImageData(width: nat, height: nat, data: seq<Byte>)

  predicate WellFormed(img: ImageData) {
    |img.data| == 4 * (img.width * img.height)
  }

  datatype Rgb = Rgb(red: Byte, green: Byte, blue: Byte)

  /** Only every `Density`-th point is drawn. */
  const Density := 2

  /** The depth that pushes a point out of view. */
  const HiddenDepth := 10000.0

  /** Brightness at or above which a point would be hidden. */
  const Threshold := 300

  const Gain := 5.0

  // ---------------------------------------------------------------------
  // Grid layout (createParticles)

  /** Position of pixel (x, y) in the row-major vertex list. */
  function GridIndex(x: int, y: int, width: int): int {
    y * width + x
  }

  /** Where the vertex of pixel (x, y) sits: centred on the origin, with the
      image's rows running downwards. */
  function GridPosition(x: int, y: int, width: nat, height: nat): Vec3 {
    Vec3(x as real - width as real / 2.0, height as real / 2.0 - y as real, 0.0)
  }

  lemma {:induction false} ProductNonNegative(a: nat, b: nat)
    ensures a * b >= 0
  {
    if a > 0 {
      ProductNonNegative(a - 1, b);
      assert a * b == (a - 1) * b + b;
    }
  }

  /** Pixels of earlier rows, and earlier pixels of the same row, come first. */
  lemma GridIndexBelow(x: int, y: int, row: int, col: int, width: int)
    requires 0 <= x < width && 0 <= y && 0 <= col <= width
    requires y < row || (y == row && x < col)
    ensures 0 <= GridIndex(x, y, width) < row * width + col
  {
    var below, upto := y * width, row * width;
    assert below >= 0;
    if y < row {
      var gap := (row - y - 1) * width;
      ProductNonNegative(row - y - 1, width);
      assert upto == below + width + gap;
    } else {
      assert upto == below;
    }
  }

  /** Every vertex index names exactly one pixel: k is the index of pixel
      (k % width, k / width). */
  lemma GridIndexInverse(k: int, width: int)
    requires 0 <= k && 0 < width
    ensures 0 <= k % width < width && 0 <= k / width
    ensures GridIndex(k % width, k / width, width) == k
  {
  }

  /** Two different pixels never share a vertex index. */
  lemma {:induction false} GridIndexInjective(x1: int, y1: int, x2: int, y2: int, width: int)
    requires 0 <= x1 < width && 0 <= x2 < width && 0 <= y1 && 0 <= y2
    requires GridIndex(x1, y1, width) == GridIndex(x2, y2, width)
    ensures x1 == x2 && y1 == y2
  {
    if y1 < y2 {
      GridIndexBelow(x1, y1, y2, x2, width);
      assert false;
    } else if y2 < y1 {
      GridIndexBelow(x2, y2, y1, x1, width);
      assert false;
    }
  }

  /** createParticles: one vertex per pixel, row by row. */
  method CreateParticles(width: nat, height: nat) returns (vertices: seq<Vec3>)
    ensures |vertices| == width * height
    ensures forall x, y :: 0 <= x < width && 0 <= y < height ==>
              0 <= GridIndex(x, y, width) < |vertices| &&
              vertices[GridIndex(x, y, width)] == GridPosition(x, y, width, height)
  {
    vertices := [];
    var y := 0;
    while y < height
      invariant 0 <= y <= height
      invariant |vertices| == y * width
      invariant forall x', y' :: 0 <= x' < width && 0 <= y' < y ==>
                  0 <= GridIndex(x', y', width) < |vertices| &&
                  vertices[GridIndex(x', y', width)] == GridPosition(x', y', width, height)
    {
      var x := 0;
      while x < width
        invariant 0 <= x <= width
        invariant |vertices| == y * width + x
        invariant forall x', y' :: 0 <= x' < width && 0 <= y' && (y' < y || (y' == y && x' < x)) ==>
                    0 <= GridIndex(x', y', width) < |vertices| &&
                    vertices[GridIndex(x', y', width)] == GridPosition(x', y', width, height)
      {
        forall x', y' | 0 <= x' < width && 0 <= y' && (y' < y || (y' == y && x' < x + 1))
          ensures 0 <= GridIndex(x', y', width) < y * width + x + 1
        {
          GridIndexBelow(x', y', y, x + 1, width);
        }
        vertices := vertices + [GridPosition(x, y, width, height)];
        x := x + 1;
      }
      assert y * width + width == (y + 1) * width;
      y := y + 1;
    }
  }

  // ---------------------------------------------------------------------
  // Frame capture cache (getImageData)

  datatype Cache = Empty | Stored(image: ImageData)

  /** getImageData: with `useCache` set and a frame already stored, the stored
      frame is returned as is; otherwise the freshly captured frame is
      returned and becomes the stored one. The capture itself is a parameter. */
  function GetImageData(useCache: bool, cache: Cache, captured: ImageData): (r: (ImageData, Cache))
    ensures r.1 == Stored(r.0)
    ensures useCache && cache.Stored? ==> r.0 == cache.image && r.1 == cache
    ensures !(useCache && cache.Stored?) ==> r.0 == captured
  {
    if useCache && cache.Stored? then (cache.image, cache)
    else (captured, Stored(captured))
  }

  /** Once a frame is stored, cached reads keep returning it whatever the
      camera shows. */
  lemma CachedReadsRepeat(useCache: bool, cache: Cache, first: ImageData, second: ImageData)
    ensures GetImageData(true, GetImageData(useCache, cache, first).1, second)
         == GetImageData(useCache, cache, first)
  {
  }

  // ---------------------------------------------------------------------
  // Depth rule (the loop body of draw)

  /** The pixel read for vertex k: channels 4k, 4k + 1 and 4k + 2. */
  function PixelAt(img: ImageData, k: nat): Rgb
    requires 4 * k + 2 < |img.data|
  {
    Rgb(img.data[4 * k], img.data[4 * k + 1], img.data[4 * k + 2])
  }

  /** In a well-formed frame, all four channels of the vertex
      createParticles made for pixel (x, y) exist. */
  lemma VertexReadsOwnPixel(img: ImageData, x: nat, y: nat)
    requires WellFormed(img)
    requires x < img.width && y < img.height
    ensures 4 * GridIndex(x, y, img.width) + 3 < |img.data|
  {
    GridIndexBelow(x, y, img.height, 0, img.width);
  }

  function ChannelSum(p: Rgb): int {
    p.red + p.green + p.blue
  }

  /** Brightness: the mean of the red, green and blue channels. */
  function Gray(p: Rgb): (g: real)
    ensures 0.0 <= g <= MaxByte as real
  {
    ChannelSum(p) as real / 3.0
  }

  /** The audio level a pixel's brightness selects, decided on the integer
      channel sum: brightness below 100 (sum < 300) follows the bass, below
      150 (sum < 450) the mid, the rest the treble. */
  function SelectedEnergy(sum: int, e: Energies): real {
    if sum < 300 then e.bass
    else if sum < 450 then e.mid
    else e.treble
  }

  /** Taking a fraction in [0, 1] of a non-negative amount gives at most
      that amount. */
  lemma FractionBelow(a: real, f: real)
    requires 0.0 <= a && 0.0 <= f <= 1.0
    ensures 0.0 <= a * f <= a
  {
    assert a * (1.0 - f) >= 0.0;
  }

  /** Below the threshold, a level in [0, 1] keeps brightness times level
      times gain in front of the hidden depth. */
  lemma LevelInFront(gray: real, level: real)
    requires 0.0 <= gray < Threshold as real && 0.0 <= level <= 1.0
    ensures 0.0 <= gray * level * Gain < HiddenDepth
  {
    FractionBelow(gray, level);
    var scaled := gray * level;
    assert 0.0 <= scaled < 300.0;
    assert scaled * Gain == scaled * 5.0;
  }

  lemma BelowThresholdInFront(gray: real, e: Energies)
    ensures UnitEnergies(e) && 0.0 <= gray < Threshold as real ==>
              && 0.0 <= gray * e.bass * Gain < HiddenDepth
              && 0.0 <= gray * e.mid * Gain < HiddenDepth
              && 0.0 <= gray * e.treble * Gain < HiddenDepth
  {
    if UnitEnergies(e) && 0.0 <= gray < Threshold as real {
      LevelInFront(gray, e.bass);
      LevelInFront(gray, e.mid);
      LevelInFront(gray, e.treble);
    }
  }

  /** The branch on brightness in draw, with the threshold and its thirds
      and halves as written. With levels in [0, 1] it hides a point exactly
      when the brightness reaches the threshold. */
  function GrayDepth(gray: real, e: Energies): (z: real)
    ensures UnitEnergies(e) && 0.0 <= gray ==> (z == HiddenDepth <==> Threshold as real <= gray)
  {
    BelowThresholdInFront(gray, e);
    var threshold := Threshold as real;
    if gray < threshold then
      if gray < threshold / 3.0 then gray * e.bass * Gain
      else if gray < threshold / 2.0 then gray * e.mid * Gain
      else gray * e.treble * Gain
    else HiddenDepth
  }

  /** A brightness exactly at the threshold hides the point. */
  lemma ThresholdHides(e: Energies)
    ensures GrayDepth(Threshold as real, e) == HiddenDepth
  {
  }

  /** No pixel is bright enough to reach the hiding branch. */
  lemma HideBranchUnreachable(p: Rgb)
    ensures Gray(p) < Threshold as real
  {
  }

  /** With levels in [0, 1], brightness times level times gain stays within
      [0, 255 * 5]. */
  lemma ScaledBelow(p: Rgb, e: Energies)
    ensures UnitEnergies(e) ==>
              0.0 <= Gray(p) * SelectedEnergy(ChannelSum(p), e) * Gain <= MaxByte as real * Gain
  {
    if UnitEnergies(e) {
      var gray, level := Gray(p), SelectedEnergy(ChannelSum(p), e);
      assert 0.0 <= gray <= MaxByte as real && 0.0 <= level <= 1.0;
      FractionBelow(gray, level);
      var scaled := gray * level;
      assert Gain == 5.0 && MaxByte as real == 255.0;
      assert 0.0 <= scaled * 5.0 <= 255.0 * 5.0;
    }
  }

  /** The depth of point i: points off the density grid are hidden; the rest
      get brightness times the selected level times the gain, which never
      reaches the hidden depth. */
  function PointDepth(i: nat, p: Rgb, e: Energies): (z: real)
    ensures i % Density != 0 ==> z == HiddenDepth
    ensures i % Density == 0 ==> z == Gray(p) * SelectedEnergy(ChannelSum(p), e) * Gain
    ensures UnitEnergies(e) && i % Density == 0 ==> 0.0 <= z <= MaxByte as real * Gain
    ensures UnitEnergies(e) ==> (z == HiddenDepth <==> i % Density != 0)
  {
    if i % Density != 0 then HiddenDepth
    else
      ScaledBelow(p, e);
      GrayDepth(Gray(p), e)
  }

  /** Whether the colour channels point i reads lie inside the frame. */
  predicate ChannelsPresent(img: ImageData, i: nat) {
    4 * i + 2 < |img.data|
  }

  /** The depth draw gives point i of any frame. A channel read past the end
      of the frame is `undefined`, which makes the brightness NaN; `NaN <
      threshold` is false, so such a point takes the hiding branch. */
  function FrameDepth(i: nat, img: ImageData, e: Energies): (z: real)
    ensures ChannelsPresent(img, i) ==> z == PointDepth(i, PixelAt(img, i), e)
    ensures (i % Density != 0 || !ChannelsPresent(img, i)) ==> z == HiddenDepth
    ensures UnitEnergies(e) ==> (z == HiddenDepth <==> (i % Density != 0 || !ChannelsPresent(img, i)))
  {
    if i % Density != 0 then HiddenDepth
    else if !ChannelsPresent(img, i) then HiddenDepth
    else PointDepth(i, PixelAt(img, i), e)
  }

  /** One pass of draw over the points: every vertex keeps its x and y and
      gets the depth of the rule above, read from its own pixel. */
  method UpdateDepths(vertices: seq<Vec3>, img: ImageData, e: Energies) returns (updated: seq<Vec3>)
    ensures |updated| == |vertices|
    ensures forall i :: 0 <= i < |vertices| ==>
              updated[i].x == vertices[i].x && updated[i].y == vertices[i].y &&
              updated[i].z == FrameDepth(i, img, e)
  {
    updated := [];
    var i := 0;
    while i < |vertices|
      invariant 0 <= i <= |vertices|
      invariant |updated| == i
      invariant forall j :: 0 <= j < i ==>
                  updated[j].x == vertices[j].x && updated[j].y == vertices[j].y &&
                  updated[j].z == FrameDepth(j, img, e)
    {
      var particle := vertices[i];
      var z;
      if i % Density != 0 {
        z := HiddenDepth;
      } else if |img.data| <= i * 4 + 2 {
        // a missing channel makes gray NaN, and NaN < threshold is false
        z := HiddenDepth;
      } else {
        var index := i * 4;
        var gray := (img.data[index] as int + img.data[index + 1] + img.data[index + 2]) as real / 3.0;
        var threshold := Threshold as real;
        if gray < threshold {
          if gray < threshold / 3.0 {
            z := gray * e.bass * Gain;
          } else if gray < threshold / 2.0 {
            z := gray * e.mid * Gain;
          } else {
            z := gray * e.treble * Gain;
          }
        } else {
          z := HiddenDepth;
        }
      }
      updated := updated + [particle.(z := z)];
      i := i + 1;
    }
  }

  /** One frame of draw once both the analyser and the points exist: the
      three band levels of the spectrum, then a depth for every point. Odd
      points are hidden, and so are even points whose pixel lies past the end
      of the frame; every other even point gets a depth in [0, 1275],
      strictly in front of the hidden depth. */
  method DrawFrame(vertices: seq<Vec3>, img: ImageData, bins: seq<Byte>) returns (updated: seq<Vec3>)
    requires |bins| == BinCount
    ensures |updated| == |vertices|
    ensures forall i :: 0 <= i < |updated| && i % Density != 0 ==> updated[i].z == HiddenDepth
    ensures forall i :: 0 <= i < |updated| && i % Density == 0 ==>
              (updated[i].z == HiddenDepth <==> !ChannelsPresent(img, i))
    ensures forall i :: 0 <= i < |updated| && i % Density == 0 && ChannelsPresent(img, i) ==>
              0.0 <= updated[i].z <= MaxByte as real * Gain < HiddenDepth
    ensures forall i :: 0 <= i < |updated| && i % Density == 0 && ChannelsPresent(img, i) ==>
              updated[i].z == Gray(PixelAt(img, i)) * SelectedEnergy(ChannelSum(PixelAt(img, i)), FrameEnergies(bins)) * Gain
  {
    var e := FrameEnergies(bins);
    updated := UpdateDepths(vertices, img, e);
  }
}

=== FILE: uint8.dfy ===
/** Unsigned 8-bit values, as stored in a Uint8Array.

    Both byte arrays the visualiser reads are of this kind: the analyser's
    frequency bins (`getFrequencyData`) and the RGBA channels of a canvas
    `ImageData` buffer.
 */
module Uint8 {

  /** Largest value an 8-bit channel or frequency bin can hold. */
  const MaxByte := 255

  type Byte = b: int | 0 <= b <= 255

  /** Sum of a run of bytes; a run of n bytes never sums past n full-scale values. */
  function Sum(s: seq<Byte>): (t: int)
    ensures 0 <= t <= MaxByte * |s|
  {
    if |s| == 0 then 0 else Sum(s[..|s| - 1]) + s[|s| - 1]
  }

  /** A run in which every byte has the same value sums to that value times its length. */
  lemma {:induction false} SumOfConstant(s: seq<Byte>, c: Byte)
    requires forall k :: 0 <= k < |s| ==> s[k] == c
    ensures Sum(s) == c * |s|
  {
    if |s| > 0 {
      SumOfConstant(s[..|s| - 1], c);
    }
  }
}
